=== FILE: README.md ===
# Rocinante request dispatch, modelled in Dafny

This project models the core of the Rocinante micro web framework: the request
dispatch pipeline of `Rocinante.__call__`, together with the registries and
hooks it relies on. The model is pure and functional. One call of
`Application.Dispatch` takes an application state and a request, and returns
how the request ends plus the handler cache as it stands afterwards.

For each request the pipeline:

1. runs the `process_request` hooks as a first-veto gate;
2. resolves the endpoint from the handler cache, else from the URL map, else
   from the mount table (which hands the request to a foreign WSGI
   application), else answers 404;
3. applies the verb guard (`allow_methods` for a function view; the
   lower-cased verb method, then `implement_method`, for a class view);
4. runs the `process_view` hooks as a first-veto gate unless the view is
   exempt;
5. calls the view and normalises what it returned;
6. folds the result through every `process_response` hook.

The model is split into these modules:

- `Http` (http.dfy) holds the vocabulary: verbs, headers, requests, the Python
  values a view may return, response objects, and the faults a dispatch can
  raise.
- `Handlers` (handlers.dfy) models class-based views: construction,
  `reload_request` and `implement_method`.
- `Routers` (routers.dfy) covers endpoints, rules and `Router` (`route`,
  `add_handler`, `add_urlpatterns`, and the verb check).
- `Middlewares` (middlewares.dfy) covers the base middleware, the CORS
  middleware, user middlewares, the two gates and the response chain.
- `Configs` (configs.dfy) is the named configuration store.
- `Application` (application.dfy) covers registration on the application,
  the dispatch helpers and `Dispatch`.
- `DispatchProperties` (dispatch_properties.dfy) holds the lemmas that relate
  several calls or configurations, plus concrete scenarios.

Code the model cannot see is passed in as parameters:

- the URL map's matcher (`RouteTable`);
- the bodies of views (`ViewCode`);
- the hooks of user middlewares (the function fields of `Middleware.Custom`).

A function object is shared by every rule, router and cache entry that
refers to it, and `route` sets its `allow_methods` attribute in place. The
model keeps that attribute in one map from function identity to verb list,
`App.allowMethods`, which the dispatcher reads at request time. Decorating
through a `Router` updates the same map (`Application.DecorateOnRouter`).

Mounted WSGI applications are represented only by an identity. The model's
answer for them is the `Forwarded` outcome, which carries the rewritten
environ.

Three behaviours of the code worth stating:

- The handler cache stores the handler class, not a pooled instance. Every
  request builds a fresh handler. A cached one is also reloaded with the same
  request, and `DispatchProperties.HandleIgnoresCaching` shows that reload
  is invisible.
- A view result that is neither a Response nor iterable is not rejected on
  the spot. It is passed to the response hooks, which may still replace it.
  It fails only when it is finally called (`Fault.NotCallable`).
- The mount fallback takes the first prefix in insertion order, not the
  longest prefix.

The model also states one behaviour of the code that is easy to miss. The
route verb check is case-insensitive, but the dispatcher compares
`allow_methods` with the upper-cased request method exactly. So a view
registered with `methods=['get']` answers 405 to every request. This is
`DispatchProperties.LowerCaseRegistrationRefusesUpperCaseMethods`.

## Model

| member | source | states |
|---|---|---|
| Handlers.New | rocinante/handler.py:8-18 | construction stores the application and the request, and copies url, path, json, form, args, headers, cookies and files from that request |
| Handlers.ReloadRequest | rocinante/handler.py:28-32 | after a reload the handler holds the new request and the fields derived from it, and keeps its application and class |
| Handlers.ReloadOverwrites | rocinante/handler.py:28-32 | a second reload forgets the first: only the last request counts |
| Handlers.ReloadWithOwnRequest | rocinante/application.py:86-106 | reloading a handler with the request it was built for changes nothing |
| Handlers.ImplementMethod | rocinante/handler.py:39-40 | The list holds exactly the verb names the handler class defines, so it is empty exactly when the class defines no verb. |
| Routers.CheckMethods | rocinante/router.py:26-29 | the scan succeeds iff every method name, lower-cased, is one of the eight verbs; otherwise it raises "Invalid methods"; `Rocinante._check_methods` (application.py:213-216) is the same scan |
| Routers.Route | rocinante/router.py:13-14 | `route` yields a decorator iff the verbs are valid, and raises otherwise; it runs before any rule is appended and cannot change the rule list |
| Routers.RouteIgnoresCase | rocinante/router.py:26-29 | two method lists that agree after lower-casing are accepted or refused together |
| Routers.ValidMethodsExamples | rocinante/router.py:26-29 | "GET", "post" and "Put" are accepted; a list containing "FETCH" is refused; the empty list is accepted |
| Routers.RouteDefault | rocinante/router.py:13-14 | `route` without `methods` uses `['GET']`, which the verb check accepts |
| Routers.Decorate | rocinante/router.py:16-19 | decorating appends exactly one rule after the existing ones, with the function itself as endpoint, and sets the function's `allow_methods` to the given list, leaving every other function's attribute as it was |
| Routers.RedecorateSharesVerbs | rocinante/router.py:16-19 | decorating one function twice leaves two rules that both point at it, and its `allow_methods` is the later list |
| Routers.AddHandler | rocinante/router.py:23-24 | appends exactly one rule and keeps the earlier rules in order |
| Routers.AddUrlpatterns | rocinante/router.py:31-33 | appends one rule per `Url`, in list order, after the existing rules; an empty list leaves the rules unchanged |
| Routers.AddUrlpatternsConcat | rocinante/router.py:31-33 | registering two url-pattern lists one after the other equals registering their concatenation |
| Middlewares.BaseIsInert | rocinante/middleware.py:12-19 | the base middleware's three hooks return nothing: it never short-circuits and never replaces a response |
| Middlewares.CorsGatesAreInert | rocinante/middleware.py:22-24 | CORSMiddleware's request and view hooks are the base no-ops |
| Middlewares.CorsProcessResponse | rocinante/middleware.py:24-31 | without Origin the response comes back untouched; with Origin it comes back with exactly three headers appended in order (Allow-Origin set to the origin, Allow-Credentials 'true', Expose-Headers set to the fixed list) and status, mimetype and body unchanged; on a non-Response it raises |
| Middlewares.RequestGate | rocinante/application.py:192-196 | the gate is None iff every middleware's `process_request` returns no Response; otherwise it is the Response of the first one that does |
| Middlewares.FirstVeto | rocinante/application.py:192-196 | the result is None iff no hook answers; otherwise it is the answer of the first element that answers, and every earlier element answered None |
| Middlewares.FirstVetoAppend | rocinante/application.py:192-196 | once a prefix of the list has answered, the elements after it make no difference; otherwise the answer comes from what follows |
| Middlewares.RequestGateIgnoresLater | rocinante/application.py:192-196 | appending middlewares after one whose `process_request` answered does not change the gate's answer |
| Middlewares.ViewGate | rocinante/application.py:198-204 | an exempt view gets no middleware at all; otherwise the gate answers with the first middleware's Response in registration order, and is None iff none answers |
| Middlewares.ResponseChain | rocinante/application.py:206-211 | with no middleware the input comes back; a non-Response survives only if no hook replaced it; a Response stays a Response; a changed result is a Response some hook returned |
| Middlewares.ResponseChainAppend | rocinante/application.py:206-211 | running the chain over `pre + post` equals running `post` on the result of `pre`, so every middleware runs in order |
| Middlewares.ResponseChainLast | rocinante/application.py:206-211 | the last middleware's Response replaces the accumulated one; a non-Response return leaves it; so the chain yields the last Response returned, or the input if none |
| Middlewares.ResponseChainOfInert | rocinante/application.py:206-211 | if no hook returns a Response, the chain hands back its input unchanged |
| Configs.Filtered | rocinante/config.py:10-11 | an attribute is kept iff its name does not start with `__` and its value is not callable; kept values are copied as they are |
| Configs.GetConfig | rocinante/config.py:5-6 | a name never set reads back as None; a set name reads back its stored dictionary |
| Configs.SetConfig | rocinante/config.py:8-12 | afterwards the name reads back the filtered dictionary, whatever it held before, and every other name reads back what it held before |
| Configs.SetConfigOverwrites | rocinante/config.py:12 | a later set under the same name overwrites the earlier one entirely |
| Configs.FilteredExample | rocinante/config.py:10-11 | `DEBUG` and `_secret` are kept; `__doc__` and a callable are dropped |
| Application.Decorate | rocinante/application.py:126-129 | the application's decorator appends one rule to the URL map with the function as endpoint, sets that function's `allow_methods` for all of its rules, keeps every other function's, and changes nothing else |
| Application.DecorateOnRouter | rocinante/router.py:16-19 | a router's decorator appends the rule to the router, while the function's `allow_methods`, which the application reads, is set in the one shared store |
| Application.AddHandler | rocinante/application.py:133-134 | appends one rule to the URL map and changes nothing else |
| Application.IncludeRules | rocinante/application.py:145-149 | every router rule is added in order after the existing rules, with `prefix + rule` as the pattern when a prefix is given |
| Application.IncludeRouter | rocinante/application.py:144-149 | the URL map grows by the router's rules in order, with endpoints kept and patterns prefixed when a prefix is given |
| Application.AddMiddleware | rocinante/application.py:151-152 | the middleware list becomes the earlier list followed by the new middleware |
| Application.AddMiddlewareRunsLast | rocinante/application.py:151-152 | a middleware added last is consulted by the request gate only when every earlier one let the request through, and its response hook sees what the earlier ones made of the response |
| Application.LoadConfig | rocinante/application.py:154-155 | the name then reads back the filtered configuration, every other name reads back what it held, and nothing outside the config store changes |
| Application.PutMount | rocinante/application.py:167 | after `mounts[prefix] = app` the entry for the new app is in the table and every entry is either it or one that was there before |
| Application.PutMountNew | rocinante/application.py:167 | mounting under a prefix not yet in the table appends the entry after every earlier mount |
| Application.PutMountExisting | rocinante/application.py:167 | re-mounting under an existing prefix replaces that entry's application in place: length, order and every other entry are kept |
| Application.PutMountUnique | rocinante/application.py:167 | mounting keeps the table's prefixes unique, as dictionary keys are |
| Application.PutMountReachableNew | rocinante/application.py:160-167 | a prefix mounted for the first time is found by the fallback scan for that very path iff no earlier prefix matches it |
| Application.PutMountReachableAt | rocinante/application.py:160-167 | a re-mounted prefix is found by the fallback scan for that path iff no prefix before its slot matches it |
| Application.PutMountReachable | rocinante/application.py:160-167 | both reachability cases together, for every slot |
| Application.FirstMountAt | rocinante/application.py:63-64 | with unique prefixes, the scan stops at a matching entry iff no entry before it matches |
| Application.MountWsgiApp | rocinante/application.py:160-167 | raises "Invalid prefix." if the path does not start with '/', then "Invalid wsgi application." if the app is not callable; otherwise the mount table becomes `mounts[path] = app` (kept unique, entry present), nothing else changes, and the fallback scan for the path reaches the new app exactly when no prefix ahead of its slot matches |
| Application.FirstMount | rocinante/application.py:63-64 | returns the first mount in insertion order whose prefix the path starts with (plain `startswith`); None iff there is none |
| Application.ProcessEnviron | rocinante/application.py:172-179 | PATH_INFO, REQUEST_URI and RAW_URI all become `path[len(prefix):]`, which put back behind the prefix gives the path; every other key is unchanged |
| Application.MakeResponse | rocinante/application.py:181-184 | the result is a JSON response iff the content is iterable, carrying that content and the given status (200 when none); otherwise None |
| Application.Normalise | rocinante/application.py:110-115 | a Response passes unchanged; `(body, int)` becomes a JSON response with that status when the body is iterable and None when it is not; any other iterable becomes a JSON response with the default status; a non-iterable value passes on as it is; tuples that cannot be indexed or unpacked raise |
| Application.Finish | rocinante/application.py:110-121 | a normalisation fault or a hook fault ends in that exception; a Response the chain hands back is emitted; a final object that is not a Response raises on being called |
| Application.Handle | rocinante/application.py:71-108 | a function view without `allow_methods` raises; a method outside it is 405; a class view without the lower-cased verb is 405 if it implements some verb and 404 otherwise; past the guard a view-gate answer is emitted, and otherwise the view runs on a handler bound to this very request, whether or not it came from the cache |
| Application.MountFallback | rocinante/application.py:60-69 | the result is 404 iff no mount prefix matches; otherwise the request goes to the first mount in insertion order whose prefix the path starts with, with the request's own environ in which only the three path fields are rewritten to the path with that prefix cut off |
| Application.Resolve | rocinante/application.py:39-58 | a cached path resolves to its cache entry without consulting the URL map; an uncached path resolves as the URL map answers; a miss implies the path is not cached |
| Application.Dispatch | rocinante/application.py:31-121 | a request-gate answer is emitted with the cache untouched; otherwise a resolved request goes to the resolved endpoint with the resolved path parameters (reloaded when cached), and an unresolved one goes to the mount fallback; a cache hit or a route miss leaves the cache unchanged; a cold match is stored under the path |
| DispatchProperties.HandleIgnoresCaching | rocinante/application.py:86-106 | whether the endpoint came from the cache (so the handler was also reloaded) does not change the outcome |
| DispatchProperties.CacheIsTransparent | rocinante/application.py:39-58 | while every cache entry agrees with the URL map, a request gets the outcome it would get with an empty cache, and the cache keeps agreeing afterwards |
| DispatchProperties.CacheHitIgnoresRouteTable | rocinante/application.py:40-45 | on a cache hit the URL map is not consulted: any two URL maps give the same step |
| DispatchProperties.RequestVetoIgnoresEverythingAfter | rocinante/application.py:34-37 | if a prefix of the middleware list vetoes the request, that response is emitted with the cache untouched, whatever middlewares, routes, mounts or views follow |
| DispatchProperties.FunctionViewRefusesOtherVerbs | rocinante/application.py:72-75 | a function view whose `allow_methods` lacks the request method gets 405, for every view behaviour and before `process_view` |
| DispatchProperties.RedecoratedFunctionAnswersWithLatestVerbs | rocinante/application.py:72-75 | after two `route` decorations of one function, a method outside the later list gets 405 on every path that resolves to it, whatever the first list allowed |
| DispatchProperties.ClassViewWithoutVerb | rocinante/application.py:92-98 | a class view without a method for the lower-cased verb gets 405 if it implements some verb and 404 otherwise, for every view behaviour and before `process_view` |
| DispatchProperties.LowerCaseRegistrationRefusesUpperCaseMethods | rocinante/application.py:73-75 | a function view registered only with lower-case verbs answers 405 to any request method that contains an upper-case letter |
| DispatchProperties.EarlyExitsIgnoreResponseHooks | rocinante/application.py:117-118 | the early exits (request veto, mount hand-over, 404, 405, view veto) come out the same whatever the `process_response` hooks do |
| DispatchProperties.RespondedThroughChain | rocinante/application.py:117-121 | a response emitted on the normal path is the output of the response chain |
| DispatchProperties.NormaliseIdempotent | rocinante/application.py:110-115 | normalising an already normalised result changes nothing |
| DispatchProperties.ResponseHeadersInRegistrationOrder | rocinante/application.py:206-211 | two middlewares that each add a header on the way out leave both headers on the response, in registration order |
| DispatchProperties.MountScenario | rocinante/application.py:62-67 | with mounts `/a` then `/b`, a request for `/a/x` goes only to the first app, with path fields `/x`, and the cache stays empty |
| DispatchProperties.MountIsNotSegmentAware | rocinante/application.py:63-64 | a mount at `/flask` captures `/flaskx`, which arrives as `x` |
| DispatchProperties.NothingRegisteredIsNotFound | rocinante/application.py:60-69 | with no route, no mount and no middleware, every request is a 404 and the cache stays empty |
| DispatchProperties.StackedRoutesScenario | rocinante/application.py:123-129 | `route('/b', methods=['POST'])` then `route('/a', methods=['GET'])` on one function: `POST /b` is no longer accepted and answers 405, while `GET /b` passes the guard |
| DispatchProperties.RootRouteScenario | rocinante/application.py:39-58 | `GET /` on a GET route registered through the decorator: the first request fills the cache with the match and answers 200 JSON; the second is a cache hit with the same outcome and an unchanged cache |

## Left out

- LRU eviction and capacity: `HandlerLRUCache` (rocinante/cache.py) is not part of this model, so the cache is a plain map with lookup and store. Note that `handler_cache_capacity` is stored on the instance but never reaches the class-level cache.
- URL pattern matching: the toolkit's `Map`/`Rule` matcher is a foreign library and appears as the uninterpreted `RouteTable` parameter. Its redirect for a missing trailing slash, which is not `NotFound`, is not modelled.
- Routers.AddHandler: the toolkit's `Rule` refuses a pattern that does not start with `/`; the model treats patterns as uninterpreted strings and always appends.
- Routers.Decorate: the same `Rule` check is not modelled; in the code `allow_methods` is already set when it raises.
- Routers.AddUrlpatterns: the same `Rule` check is not modelled; in the code the urls before a refused one stay registered.
- Application.AddHandler: the same `Rule` check is not modelled.
- Application.Decorate: the same `Rule` check is not modelled.
- Application.DecorateOnRouter: the same `Rule` check is not modelled.
- Application.IncludeRouter: the same `Rule` check is not modelled, so a prefix such as `api` is accepted; in the code every rule is prefixed and every router rule starts with `/`, so the loop raises at the first rule and nothing is added.
- The toolkit raises when the same rule object is bound to the map twice, e.g. a router included twice without a prefix. This is not modelled.
- Response and request classes: these are toolkit wrappers. The model keeps only status, mimetype, header list and body of a response. It also keeps the request fields a handler copies, plus the Origin header. Failures of `json.dumps` on unserialisable content are not modelled.
- Exceptions raised inside view code or inside user middleware hooks are not modelled. A user hook is a total function.
- Hooks that mutate the request in place are not modelled. A response hook that mutates its response in place is modelled as one that returns the mutated response.
- A view may return a callable object that is not a Response. The code would call it as a WSGI application at the end. `Value.Opaque` stands only for non-callable objects.
- Handler attributes other than the methods its class defines are not modelled as lookup targets. Examples are `path`, `json` and `reload_request`, which a request method such as `PATH` would reach through `getattr`. A non-callable class attribute named like a verb is not modelled either.
- Mixin attribute copying (rocinante/handler.py:20-26, `_mixin_classes`) is runtime reflection and is not modelled.
- The exempt decorator (rocinante/decorator.py) is modelled only as its `process_view_exempt` flag, on functions and on handler methods.
- Application.AddMiddleware: the code builds the middleware as `middleware(**kwargs)`, and every middleware class of the framework requires an `application` argument (rocinante/middleware.py:9), so the call raises TypeError and registers nothing unless `application=` is among the keyword arguments; the model registers the middleware value as if the application had been passed, and never produces that failure.
- `run`, `startup`, `_execute_startup_event`, the WebSocket handler, static files, templates and the demos are process plumbing or examples.
- Concurrency: the class-level shared state becomes one immutable `App` value. Thread-safety is out of scope.
- `Http.Lower` lower-cases ASCII only. For the verb test this agrees with `str.lower()`: the only non-ASCII character that lower-cases into ASCII is KELVIN SIGN (to `k`), and no verb contains `k`.
- Handlers.ImplementMethod: states which verbs are listed, not that the list is in the alphabetical order `dir()` produces. The order is only used through the list's length.

=== FILE: application.dfy ===
/** The application object: registration of routes, handlers, routers,
    middlewares and mounted WSGI applications, and the per-request decision
    tree of `Rocinante.__call__` (rocinante/application.py). */
module Application {
  import opened Wrappers
  import opened Http
  import opened Handlers
  import opened Routers
  import opened Middlewares
  import opened Configs

  /** A foreign WSGI application: an identity, and whether it is callable. */
  datatype WsgiApp = WsgiApp(id: nat, isCallable: bool)

  /** An entry of the mount table: a path prefix and the application under it. */
  datatype Mount = Mount(prefix: string, app: WsgiApp)

  /** The handler cache: request path to the endpoint and path parameters
      resolved for it. */
  type Cache = map<string, Match>

  /** The state a `Rocinante` instance dispatches against. `urlMap` is the
      ordered rule list of the URL map; `allowMethods` holds the attribute
      the dispatcher reads from function objects; `mounts` is the mount
      dictionary in insertion order. */
  datatype App = App(
    id: nat,
    urlMap: Router,
    allowMethods: AllowMethods,
    middlewares: seq<Middleware>,
    mounts: seq<Mount>,
    cache: Cache,
    config: ConfigStore)

  /** The URL map's matcher, which this model does not interpret: given the
      registered rules and a path, a match or `NotFound` (`None`). */
  type RouteTable = (seq<Rule>, string) -> Option<Match>

  /** A call into view code: `endpoint(request, **kwargs)` for a function, or
      `method(**kwargs)` on a handler instance. */
  datatype Invocation =
    | CallFunction(f: Func, request: Request, kwargs: Kwargs)
    | CallMethod(handler: RequestHandler, name: string, kwargs: Kwargs)

  /** What the views return when called, which this model does not interpret. */
  type ViewCode = Invocation -> Object

  // ---------------------------------------------------------------- registration

  /** The decorator of `route`, applied: the function object gets its
      `allow_methods`, which every rule of that function then reads, and a
      rule for the function goes into the URL map. */
  function Decorate(app: App, d: Decorator, fbv: Func): (r: App)
    ensures r.urlMap.rules == app.urlMap.rules + [Rule(d.pattern, Fbv(fbv))]
    ensures r.allowMethods.Keys == app.allowMethods.Keys + {fbv.id}
    ensures r.allowMethods[fbv.id] == d.methods
    ensures forall id :: id in app.allowMethods && id != fbv.id ==> r.allowMethods[id] == app.allowMethods[id]
    ensures r == app.(urlMap := r.urlMap, allowMethods := r.allowMethods)
  {
    var (m, verbs) := Routers.Decorate(app.urlMap, app.allowMethods, d, fbv);
    assert m.rules == m.rules[..|app.urlMap.rules|] + [m.rules[|app.urlMap.rules|]];
    app.(urlMap := m, allowMethods := verbs)
  }

  /** The decorator of a `Router`'s `route`, applied: the rule goes into the
      router, while `allow_methods` is set on the function object itself,
      which the application's dispatcher reads. */
  function DecorateOnRouter(app: App, router: Router, d: Decorator, fbv: Func): (r: (App, Router))
    ensures r.1.rules == router.rules + [Rule(d.pattern, Fbv(fbv))]
    ensures r.0.allowMethods.Keys == app.allowMethods.Keys + {fbv.id}
    ensures r.0.allowMethods[fbv.id] == d.methods
    ensures forall id :: id in app.allowMethods && id != fbv.id ==> r.0.allowMethods[id] == app.allowMethods[id]
    ensures r.0 == app.(allowMethods := r.0.allowMethods)
  {
    var (m, verbs) := Routers.Decorate(router, app.allowMethods, d, fbv);
    assert m.rules == m.rules[..|router.rules|] + [m.rules[|router.rules|]];
    (app.(allowMethods := verbs), m)
  }

  /** `add_handler(rule, handler)`. */
  function AddHandler(app: App, pattern: string, handler: Endpoint): (r: App)
    ensures r.urlMap.rules == app.urlMap.rules + [Rule(pattern, handler)]
    ensures r == app.(urlMap := r.urlMap)
  {
    var m := Routers.AddHandler(app.urlMap, pattern, handler);
    assert m.rules == m.rules[..|app.urlMap.rules|] + [m.rules[|app.urlMap.rules|]];
    app.(urlMap := m)
  }

  /** A router rule as `include_router` adds it: unchanged without a prefix,
      with `prefix + rule` as pattern otherwise. */
  function Prefixed(rule: Rule, prefix: Option<string>): Rule {
    match prefix
    case None => rule
    case Some(p) => Rule(p + rule.pattern, rule.endpoint)
  }

  /** The loop of `include_router`: each router rule is added, in order. */
  function IncludeRules(urlMap: Router, rules: seq<Rule>, prefix: Option<string>): (r: Router)
    ensures |r.rules| == |urlMap.rules| + |rules|
    ensures r.rules[..|urlMap.rules|] == urlMap.rules
    ensures forall i :: 0 <= i < |rules| ==> r.rules[|urlMap.rules| + i] == Prefixed(rules[i], prefix)
    decreases |rules|
  {
    if rules == [] then urlMap
    else
      var next := Router(urlMap.rules + [Prefixed(rules[0], prefix)]);
      var r := IncludeRules(next, rules[1..], prefix);
      assert r.rules[..|urlMap.rules|] == r.rules[..|next.rules|][..|urlMap.rules|];
      assert r.rules[|urlMap.rules|] == r.rules[..|next.rules|][|urlMap.rules|];
      assert forall i :: 1 <= i < |rules| ==> rules[i] == rules[1..][i - 1];
      r
  }

  /** `include_router(router, prefix=...)`. */
  function IncludeRouter(app: App, router: Router, prefix: Option<string>): (r: App)
    ensures |r.urlMap.rules| == |app.urlMap.rules| + |router.rules|
    ensures r.urlMap.rules[..|app.urlMap.rules|] == app.urlMap.rules
    ensures forall i :: 0 <= i < |router.rules| ==>
              && r.urlMap.rules[|app.urlMap.rules| + i].endpoint == router.rules[i].endpoint
              && r.urlMap.rules[|app.urlMap.rules| + i].pattern
                 == (if prefix.Some? then prefix.value + router.rules[i].pattern else router.rules[i].pattern)
    ensures r == app.(urlMap := r.urlMap)
  {
    app.(urlMap := IncludeRules(app.urlMap, router.rules, prefix))
  }

  /** `add_middleware`: the new middleware runs after every earlier one. */
  function AddMiddleware(app: App, m: Middleware): (r: App)
    ensures r.middlewares == app.middlewares + [m]
    ensures r == app.(middlewares := r.middlewares)
  {
    app.(middlewares := app.middlewares + [m])
  }

  /** A middleware added last is consulted by the request gate only when
      every earlier one let the request through, and its `process_response`
      sees what the earlier ones made of the response. */
  lemma {:induction false} AddMiddlewareRunsLast(app: App, m: Middleware, req: Request, obj: Object)
    ensures RequestGate(AddMiddleware(app, m).middlewares, req)
            == if RequestGate(app.middlewares, req).Some? then RequestGate(app.middlewares, req)
               else ProcessRequest(m, req)
    ensures ResponseChain(AddMiddleware(app, m).middlewares, req, obj)
            == ChainStep(m, req, ResponseChain(app.middlewares, req, obj))
  {
    FirstVetoAppend(app.middlewares, [m], RequestHook(req));
    assert FirstVeto([m], RequestHook(req)) == RequestHook(req)(m);
    ResponseChainLast(app.middlewares, m, req, obj);
  }

  /** `load_config`. */
  function LoadConfig(app: App, name: string, obj: ConfigObject): (r: App)
    ensures GetConfig(r.config, name) == Some(Filtered(obj))
    ensures forall n :: n != name ==> GetConfig(r.config, n) == GetConfig(app.config, n)
    ensures r.config == SetConfig(app.config, name, obj)
    ensures r == app.(config := r.config)
  {
    app.(config := SetConfig(app.config, name, obj))
  }

  /** No prefix occurs twice in the mount table (it is a dictionary). */
  predicate UniquePrefixes(mounts: seq<Mount>) {
    forall i, j :: 0 <= i < j < |mounts| ==> mounts[i].prefix != mounts[j].prefix
  }

  predicate HasPrefix(mounts: seq<Mount>, prefix: string) {
    exists i :: 0 <= i < |mounts| && mounts[i].prefix == prefix
  }

  /** `mounts[prefix] = app` on an insertion-ordered dictionary: the entry
      with that key gets the new application, or a new entry goes last. */
  function PutMount(mounts: seq<Mount>, prefix: string, wsgi: WsgiApp): (r: seq<Mount>)
    ensures Mount(prefix, wsgi) in r
    ensures forall m :: m in r ==> m == Mount(prefix, wsgi) || m in mounts
    decreases |mounts|
  {
    if mounts == [] then [Mount(prefix, wsgi)]
    else if mounts[0].prefix == prefix then [Mount(prefix, wsgi)] + mounts[1..]
    else [mounts[0]] + PutMount(mounts[1..], prefix, wsgi)
  }

  /** Mounting under a new prefix appends it, after every earlier mount. */
  lemma {:induction false} PutMountNew(mounts: seq<Mount>, prefix: string, wsgi: WsgiApp)
    requires !HasPrefix(mounts, prefix)
    ensures PutMount(mounts, prefix, wsgi) == mounts + [Mount(prefix, wsgi)]
    decreases |mounts|
  {
    if mounts != [] {
      assert mounts[0].prefix != prefix;
      assert forall i :: 0 <= i < |mounts| - 1 ==> mounts[1..][i] == mounts[i + 1];
      PutMountNew(mounts[1..], prefix, wsgi);
      assert [mounts[0]] + (mounts[1..] + [Mount(prefix, wsgi)]) == mounts + [Mount(prefix, wsgi)];
    }
  }

  /** Re-mounting under an existing prefix replaces that entry's application
      in place: same length, same order, every other entry unchanged. */
  lemma {:induction false} PutMountExisting(mounts: seq<Mount>, prefix: string, wsgi: WsgiApp)
    requires UniquePrefixes(mounts)
    requires HasPrefix(mounts, prefix)
    ensures |PutMount(mounts, prefix, wsgi)| == |mounts|
    ensures forall i :: 0 <= i < |mounts| ==>
              PutMount(mounts, prefix, wsgi)[i]
              == (if mounts[i].prefix == prefix then Mount(prefix, wsgi) else mounts[i])
    decreases |mounts|
  {
    var r := PutMount(mounts, prefix, wsgi);
    if mounts[0].prefix == prefix {
      assert forall i :: 1 <= i < |mounts| ==> mounts[i].prefix != prefix;
    } else {
      var tail := mounts[1..];
      assert HasPrefix(tail, prefix) by {
        var i :| 0 <= i < |mounts| && mounts[i].prefix == prefix;
        assert tail[i - 1] == mounts[i];
      }
      assert forall i :: 0 <= i < |tail| ==> tail[i] == mounts[i + 1];
      PutMountExisting(tail, prefix, wsgi);
      assert r == [mounts[0]] + PutMount(tail, prefix, wsgi);
      forall i | 0 <= i < |mounts|
        ensures r[i] == (if mounts[i].prefix == prefix then Mount(prefix, wsgi) else mounts[i])
      {
        if i > 0 {
          assert r[i] == PutMount(tail, prefix, wsgi)[i - 1];
        }
      }
    }
  }

  /** Mounting keeps the prefixes of the table unique. */
  lemma PutMountUnique(mounts: seq<Mount>, prefix: string, wsgi: WsgiApp)
    requires UniquePrefixes(mounts)
    ensures UniquePrefixes(PutMount(mounts, prefix, wsgi))
  {
    var r := PutMount(mounts, prefix, wsgi);
    if HasPrefix(mounts, prefix) {
      PutMountExisting(mounts, prefix, wsgi);
      assert forall i :: 0 <= i < |r| ==> r[i].prefix == mounts[i].prefix;
    } else {
      PutMountNew(mounts, prefix, wsgi);
      assert forall i :: 0 <= i < |mounts| ==> r[i] == mounts[i];
    }
  }

  /** A new prefix goes last, so the fallback scan reaches it iff no earlier
      prefix matches the path. */
  lemma PutMountReachableNew(mounts: seq<Mount>, prefix: string, wsgi: WsgiApp)
    requires UniquePrefixes(mounts) && !HasPrefix(mounts, prefix)
    ensures FirstMount(PutMount(mounts, prefix, wsgi), prefix) == Some(Mount(prefix, wsgi))
            <==> forall j :: 0 <= j < |mounts| ==> !StartsWith(prefix, mounts[j].prefix)
  {
    var ms := PutMount(mounts, prefix, wsgi);
    PutMountUnique(mounts, prefix, wsgi);
    PutMountNew(mounts, prefix, wsgi);
    assert ms[|mounts|] == Mount(prefix, wsgi);
    assert StartsWith(prefix, ms[|mounts|].prefix);
    FirstMountAt(ms, prefix, |mounts|);
    assert forall j :: 0 <= j < |mounts| ==> ms[j] == mounts[j];
  }

  /** An existing prefix keeps its slot, so the fallback scan reaches it iff
      no prefix before that slot matches the path. */
  lemma PutMountReachableAt(mounts: seq<Mount>, prefix: string, wsgi: WsgiApp, k: nat)
    requires UniquePrefixes(mounts) && k < |mounts| && mounts[k].prefix == prefix
    ensures FirstMount(PutMount(mounts, prefix, wsgi), prefix) == Some(Mount(prefix, wsgi))
            <==> forall j :: 0 <= j < k ==> !StartsWith(prefix, mounts[j].prefix)
  {
    var ms := PutMount(mounts, prefix, wsgi);
    PutMountUnique(mounts, prefix, wsgi);
    PutMountExisting(mounts, prefix, wsgi);
    assert ms[k] == Mount(prefix, wsgi);
    assert StartsWith(prefix, ms[k].prefix);
    FirstMountAt(ms, prefix, k);
    assert forall j :: 0 <= j < k ==> ms[j].prefix == mounts[j].prefix;
  }

  /** Both cases, for every slot. */
  lemma PutMountReachable(mounts: seq<Mount>, prefix: string, wsgi: WsgiApp)
    requires UniquePrefixes(mounts)
    ensures !HasPrefix(mounts, prefix) ==>
              (FirstMount(PutMount(mounts, prefix, wsgi), prefix) == Some(Mount(prefix, wsgi))
               <==> forall j :: 0 <= j < |mounts| ==> !StartsWith(prefix, mounts[j].prefix))
    ensures forall i :: 0 <= i < |mounts| && mounts[i].prefix == prefix ==>
              (FirstMount(PutMount(mounts, prefix, wsgi), prefix) == Some(Mount(prefix, wsgi))
               <==> forall j :: 0 <= j < i ==> !StartsWith(prefix, mounts[j].prefix))
  {
    if !HasPrefix(mounts, prefix) {
      PutMountReachableNew(mounts, prefix, wsgi);
    }
    forall i | 0 <= i < |mounts| && mounts[i].prefix == prefix
      ensures FirstMount(PutMount(mounts, prefix, wsgi), prefix) == Some(Mount(prefix, wsgi))
              <==> forall j :: 0 <= j < i ==> !StartsWith(prefix, mounts[j].prefix)
    {
      PutMountReachableAt(mounts, prefix, wsgi, i);
    }
  }

  /** `mount_wsgi_app(app, path=...)`: refuses a path not starting with `/`,
      then a non-callable application; otherwise files the application under
      the path, replacing in place what was mounted there before. */
  function MountWsgiApp(app: App, wsgi: WsgiApp, path: string): (r: Result<App, RegistrationError>)
    requires UniquePrefixes(app.mounts)
    ensures !StartsWith(path, "/") ==> r == Failure(InvalidPrefix)
    ensures StartsWith(path, "/") && !wsgi.isCallable ==> r == Failure(InvalidWsgiApplication)
    ensures r.Success? <==> StartsWith(path, "/") && wsgi.isCallable
    ensures r.Success? ==> && r.value == app.(mounts := r.value.mounts)
                           && r.value.mounts == PutMount(app.mounts, path, wsgi)
                           && UniquePrefixes(r.value.mounts)
                           && Mount(path, wsgi) in r.value.mounts
    // a new prefix goes last: the fallback reaches it iff no earlier prefix matches the path
    ensures r.Success? && !HasPrefix(app.mounts, path) ==>
              (FirstMount(r.value.mounts, path) == Some(Mount(path, wsgi))
               <==> forall j :: 0 <= j < |app.mounts| ==> !StartsWith(path, app.mounts[j].prefix))
    // an existing prefix keeps its slot: the fallback reaches it iff no prefix before the slot matches
    ensures forall i :: r.Success? && 0 <= i < |app.mounts| && app.mounts[i].prefix == path ==>
              (FirstMount(r.value.mounts, path) == Some(Mount(path, wsgi))
               <==> forall j :: 0 <= j < i ==> !StartsWith(path, app.mounts[j].prefix))
  {
    if !StartsWith(path, "/") then Failure(InvalidPrefix)
    else if !wsgi.isCallable then Failure(InvalidWsgiApplication)
    else
      PutMountUnique(app.mounts, path, wsgi);
      PutMountReachable(app.mounts, path, wsgi);
      Success(app.(mounts := PutMount(app.mounts, path, wsgi)))
  }

  // ---------------------------------------------------------------- dispatch helpers

  /** The mount fallback's scan: the first entry, in insertion order, whose
      prefix the path starts with (plain string prefix, not path segments). */
  function FirstMount(mounts: seq<Mount>, path: string): (r: Option<Mount>)
    ensures r.None? <==> forall i :: 0 <= i < |mounts| ==> !StartsWith(path, mounts[i].prefix)
    ensures r.Some? ==> exists i :: 0 <= i < |mounts| && mounts[i] == r.value
                                    && StartsWith(path, mounts[i].prefix)
                                    && forall j :: 0 <= j < i ==> !StartsWith(path, mounts[j].prefix)
    decreases |mounts|
  {
    if mounts == [] then None
    else if StartsWith(path, mounts[0].prefix) then Some(mounts[0])
    else
      var r := FirstMount(mounts[1..], path);
      assert forall i :: 1 <= i < |mounts| ==> mounts[i] == mounts[1..][i - 1];
      if r.Some? then
        ghost var k :| 0 <= k < |mounts| - 1 && mounts[1..][k] == r.value
                       && StartsWith(path, mounts[1..][k].prefix)
                       && forall j :: 0 <= j < k ==> !StartsWith(path, mounts[1..][j].prefix);
        assert mounts[k + 1] == r.value;
        r
      else
        r
  }

  /** In a table with unique prefixes, the scan stops at a matching entry
      exactly when no entry before it matches. */
  lemma FirstMountAt(mounts: seq<Mount>, path: string, k: nat)
    requires UniquePrefixes(mounts)
    requires k < |mounts| && StartsWith(path, mounts[k].prefix)
    ensures FirstMount(mounts, path) == Some(mounts[k])
            <==> forall j :: 0 <= j < k ==> !StartsWith(path, mounts[j].prefix)
  {
    var r := FirstMount(mounts, path);
    var i :| 0 <= i < |mounts| && mounts[i] == r.value && StartsWith(path, mounts[i].prefix)
             && forall j :: 0 <= j < i ==> !StartsWith(path, mounts[j].prefix);
    if r == Some(mounts[k]) {
      assert mounts[i].prefix == mounts[k].prefix;
      assert i == k;
    }
    if forall j :: 0 <= j < k ==> !StartsWith(path, mounts[j].prefix) {
      assert !(i < k);
      assert !(k < i);
    }
  }

  const PathInfo: string := "PATH_INFO"
  const RequestUri: string := "REQUEST_URI"
  const RawUri: string := "RAW_URI"

  /** `_process_environ`: the three path fields of the environ become the
      request path with the mount prefix cut off; nothing else changes. */
  function ProcessEnviron(environ: Environ, path: string, prefix: string): (e: Environ)
    ensures e.Keys == environ.Keys + {PathInfo, RequestUri, RawUri}
    ensures e[PathInfo] == Drop(path, |prefix|)
    ensures e[RequestUri] == Drop(path, |prefix|)
    ensures e[RawUri] == Drop(path, |prefix|)
    ensures StartsWith(path, prefix) ==> prefix + e[PathInfo] == path
    ensures forall k :: k in environ && k !in {PathInfo, RequestUri, RawUri} ==> e[k] == environ[k]
  {
    var rest := Drop(path, |prefix|);
    assert StartsWith(path, prefix) ==> prefix + rest == path[..|prefix|] + path[|prefix|..] == path;
    environ[PathInfo := rest][RequestUri := rest][RawUri := rest]
  }

  /** `_make_response(content, status)`: a JSON response for iterable
      content, and `None` otherwise. */
  function MakeResponse(content: Value, status: Option<int>): (r: Object)
    ensures r.Resp? <==> Iterable(content)
    ensures r.Resp? ==> && r.response.body == Json(content) && r.response.headers == []
                        && r.response.status == (if status.Some? then status.value else 200)
    ensures r.Plain? ==> r.value == NoneValue
  {
    if Iterable(content) then Resp(JsonResponse(content, status)) else Plain(NoneValue)
  }

  /** The normalisation of a view's return value (rocinante/application.py,
      lines 110-115). A Response passes through; a `(body, status)` pair whose
      status is an int becomes a JSON response with that status, or `None`
      when the body is not iterable; any other iterable becomes a JSON
      response with the default status; anything else is passed on as it is.
      Tuples the code cannot unpack raise. */
  function Normalise(obj: Object): (r: Result<Object, Fault>)
    ensures obj.Resp? ==> r == Success(obj)
    ensures obj.Plain? && obj.value.Tuple? && |obj.value.items| < 2 ==> r == Failure(TupleTooShort)
    ensures obj.Plain? && obj.value.Tuple? && |obj.value.items| > 2 && obj.value.items[1].Int? ==>
              r == Failure(TooManyArguments)
    ensures forall body, n :: obj == Plain(Tuple([body, Int(n)])) && Iterable(body) ==>
              r == Success(Resp(JsonResponse(body, Some(n))))
    ensures forall body, n :: obj == Plain(Tuple([body, Int(n)])) && !Iterable(body) ==>
              r == Success(Plain(NoneValue))
    ensures obj.Plain? && Iterable(obj.value) && !(obj.value.Tuple? && |obj.value.items| >= 2 && obj.value.items[1].Int?)
            && !(obj.value.Tuple? && |obj.value.items| < 2) ==>
              r == Success(Resp(JsonResponse(obj.value, None)))
    ensures obj.Plain? && !Iterable(obj.value) ==> r == Success(obj)
    ensures r.Success? && r.value.Resp? && obj.Plain? ==> r.value.response.body.Json?
  {
    match obj
    case Resp(_) => Success(obj)
    case Plain(v) =>
      if v.Tuple? then
        if |v.items| < 2 then Failure(TupleTooShort)
        else if v.items[1].Int? then
          if |v.items| > 2 then Failure(TooManyArguments)
          else Success(MakeResponse(v.items[0], Some(v.items[1].n)))
        else Success(MakeResponse(v, None))
      else if Iterable(v) then Success(MakeResponse(v, None))
      else Success(obj)
  }

  // ---------------------------------------------------------------- dispatch

  /** How a request ends: a response emitted straight away by a gate or a
      guard, a hand-over to a mounted application, a response that went
      through the normal path, or an exception. */
  datatype Outcome =
    | RequestVetoed(response: Response)  // a `process_request` hook answered
    | Forwarded(app: WsgiApp, environ: Environ)  // handed to a mounted application
    | NotFound  // a `NotFoundResponse`, status 404
    | MethodNotAllowed  // a `MethodNotAllowedResponse`, status 405
    | ViewVetoed(response: Response)  // a `process_view` hook answered
    | Responded(response: Response)  // the normal path, after the response chain
    | Failed(fault: Fault)

  /** The outcome of one request, with the handler cache as it stands after it. */
  datatype Step = Step(outcome: Outcome, cache: Cache)

  /** The tail of the normal path: normalise, run the response chain, and
      call the result, which must by then be a Response. */
  function Finish(mws: seq<Middleware>, req: Request, returned: Object): (o: Outcome)
    ensures o.Responded? || o.Failed?
    ensures o.Responded? ==> exists obj :: Normalise(returned) == Success(obj)
                                           && ResponseChain(mws, req, obj) == Success(Resp(o.response))
    // a normalisation fault, a fault of a hook, or a final object that is not a
    // Response ends in an exception; a Response the chain hands back is emitted
    ensures Normalise(returned).Failure? ==> o == Failed(Normalise(returned).error)
    ensures Normalise(returned).Success? ==>
              var chained := ResponseChain(mws, req, Normalise(returned).value);
              && (chained.Failure? ==> o == Failed(chained.error))
              && (chained.Success? && chained.value.Resp? ==> o == Responded(chained.value.response))
              && (chained.Success? && chained.value.Plain? ==> o == Failed(NotCallable))
  {
    match Normalise(returned)
    case Failure(e) => Failed(e)
    case Success(obj) =>
      match ResponseChain(mws, req, obj)
      case Failure(e) => Failed(e)
      case Success(Resp(r)) => Responded(r)
      case Success(Plain(_)) => Failed(NotCallable)
  }

  /** The verb guard lets the request through: the method is in the
      function's `allow_methods`, or the class defines the lower-cased verb. */
  predicate VerbAccepted(app: App, req: Request, endpoint: Endpoint) {
    match endpoint
    case Fbv(f) => f.id in app.allowMethods && req.httpMethod in app.allowMethods[f.id]
    case Cbv(cls) => Lower(req.httpMethod) in cls.methods
  }

  /** The view `process_view` is shown: the function, or the method for the
      lower-cased verb of a handler built for the request. */
  function ViewOf(app: App, req: Request, endpoint: Endpoint): View {
    match endpoint
    case Fbv(f) => FunctionView(f)
    case Cbv(cls) => BoundMethod(New(cls, app.id, req), Lower(req.httpMethod))
  }

  /** The call of the view on the normal path. */
  function CallOf(app: App, req: Request, endpoint: Endpoint, kwargs: Kwargs): Invocation {
    match endpoint
    case Fbv(f) => CallFunction(f, req, kwargs)
    case Cbv(cls) => CallMethod(New(cls, app.id, req), Lower(req.httpMethod), kwargs)
  }

  /** The verb guard, the view gate and the call, for a resolved endpoint
      (rocinante/application.py, lines 71-108). `cached` says whether the
      endpoint came from the handler cache, in which case a handler is
      reloaded with the request right after construction. */
  function Handle(app: App, views: ViewCode, req: Request, endpoint: Endpoint, kwargs: Kwargs, cached: bool): (o: Outcome)
    ensures !o.RequestVetoed? && !o.Forwarded?
    // function views: a missing `allow_methods` raises, a method outside it is 405
    ensures endpoint.Fbv? && endpoint.f.id !in app.allowMethods ==> o == Failed(MissingAllowMethods)
    ensures endpoint.Fbv? ==>
              (o.MethodNotAllowed? <==> endpoint.f.id in app.allowMethods && req.httpMethod !in app.allowMethods[endpoint.f.id])
    ensures endpoint.Fbv? ==> !o.NotFound?
    // class views without the verb: 405 if the class implements some verb, 404 if none
    ensures endpoint.Cbv? ==>
              (o.MethodNotAllowed? <==> Lower(req.httpMethod) !in endpoint.cls.methods
                                        && exists v :: v in HttpMethodNames && v in endpoint.cls.methods)
    ensures endpoint.Cbv? ==>
              (o.NotFound? <==> Lower(req.httpMethod) !in endpoint.cls.methods
                                && forall v :: v in HttpMethodNames ==> v !in endpoint.cls.methods)
    // past the verb guard, the view gate answers first; otherwise the view runs on
    // a handler bound to this very request, whether or not the endpoint was cached
    ensures o.ViewVetoed? <==> VerbAccepted(app, req, endpoint) && ViewGate(app.middlewares, req, ViewOf(app, req, endpoint)).Some?
    ensures o.ViewVetoed? ==> ViewGate(app.middlewares, req, ViewOf(app, req, endpoint)) == Some(o.response)
    ensures VerbAccepted(app, req, endpoint) && ViewGate(app.middlewares, req, ViewOf(app, req, endpoint)).None? ==>
              o == Finish(app.middlewares, req, views(CallOf(app, req, endpoint, kwargs)))
  {
    match endpoint
    case Fbv(f) =>
      if f.id !in app.allowMethods then Failed(MissingAllowMethods)
      else if req.httpMethod !in app.allowMethods[f.id] then MethodNotAllowed
      else
        (match ViewGate(app.middlewares, req, FunctionView(f))
         case Some(r) => ViewVetoed(r)
         case None => Finish(app.middlewares, req, views(CallFunction(f, req, kwargs))))
    case Cbv(cls) =>
      var built := New(cls, app.id, req);
      ReloadWithOwnRequest(built);
      var handler := if cached then ReloadRequest(built, req) else built;
      var name := Lower(req.httpMethod);
      if name !in cls.methods then
        if |ImplementMethod(handler)| >= 1 then MethodNotAllowed else NotFound
      else
        match ViewGate(app.middlewares, req, BoundMethod(handler, name))
        case Some(r) => ViewVetoed(r)
        case None =>
          var current := ReloadRequest(handler, req);
          Finish(app.middlewares, req, views(CallMethod(current, name, kwargs)))
  }

  /** The mount fallback after a route miss (rocinante/application.py,
      lines 60-69). */
  function MountFallback(mounts: seq<Mount>, req: Request): (o: Outcome)
    ensures o.NotFound? || o.Forwarded?
    ensures o == NotFound <==> forall i :: 0 <= i < |mounts| ==> !StartsWith(req.path, mounts[i].prefix)
    ensures o.Forwarded? ==>
              var m := FirstMount(mounts, req.path).value;
              && m in mounts && StartsWith(req.path, m.prefix) && o.app == m.app
              && {PathInfo, RequestUri, RawUri} <= o.environ.Keys
              && m.prefix + o.environ[PathInfo] == req.path
              && o.environ[RequestUri] == o.environ[PathInfo] == o.environ[RawUri]
    // the mounted application gets the request's own environ with only the
    // three path fields rewritten
    ensures o.Forwarded? ==>
              o.environ == ProcessEnviron(req.environ, req.path, FirstMount(mounts, req.path).value.prefix)
  {
    match FirstMount(mounts, req.path)
    case Some(m) => Forwarded(m.app, ProcessEnviron(req.environ, req.path, m.prefix))
    case None => NotFound
  }

  /** The endpoint and path parameters the request resolves to, from the
      cache or else from the URL map. */
  function Resolve(app: App, routes: RouteTable, req: Request): (r: Option<Match>)
    ensures req.path in app.cache ==> r == Some(app.cache[req.path])
    ensures req.path !in app.cache ==> r == routes(app.urlMap.rules, req.path)
    ensures r.None? ==> req.path !in app.cache
  {
    if req.path in app.cache then Some(app.cache[req.path]) else routes(app.urlMap.rules, req.path)
  }

  /** `Rocinante.__call__`. */
  function Dispatch(app: App, routes: RouteTable, views: ViewCode, req: Request): (s: Step)
    // the request gate comes first, and when it answers nothing else happens
    ensures RequestGate(app.middlewares, req).Some? ==>
              s == Step(RequestVetoed(RequestGate(app.middlewares, req).value), app.cache)
    // the cache only ever gains the entry of a cold route match
    ensures req.path in app.cache ==> s.cache == app.cache
    ensures routes(app.urlMap.rules, req.path).None? ==> s.cache == app.cache
    ensures RequestGate(app.middlewares, req).None? && req.path !in app.cache
            && routes(app.urlMap.rules, req.path).Some? ==>
              s.cache == app.cache[req.path := routes(app.urlMap.rules, req.path).value]
    // no route and no mount: 404
    ensures RequestGate(app.middlewares, req).None? && Resolve(app, routes, req).None?
            && (forall i :: 0 <= i < |app.mounts| ==> !StartsWith(req.path, app.mounts[i].prefix)) ==>
              s.outcome == NotFound
    // a hand-over to a mount happens only on a resolution miss
    ensures s.outcome.Forwarded? ==> Resolve(app, routes, req).None? && s.outcome == MountFallback(app.mounts, req)
    // a resolved request goes to the resolved endpoint with the resolved path
    // parameters, a cached one being reloaded
    ensures RequestGate(app.middlewares, req).None? && Resolve(app, routes, req).Some? ==>
              s.outcome == Handle(app, views, req, Resolve(app, routes, req).value.endpoint,
                                  Resolve(app, routes, req).value.kwargs, req.path in app.cache)
    // a request that resolves to nothing goes to the mount fallback
    ensures RequestGate(app.middlewares, req).None? && Resolve(app, routes, req).None? ==>
              s.outcome == MountFallback(app.mounts, req)
  {
    match RequestGate(app.middlewares, req)
    case Some(r) => Step(RequestVetoed(r), app.cache)
    case None =>
      if req.path in app.cache then
        var hit := app.cache[req.path];
        Step(Handle(app, views, req, hit.endpoint, hit.kwargs, true), app.cache)
      else
        match routes(app.urlMap.rules, req.path)
        case Some(m) => Step(Handle(app, views, req, m.endpoint, m.kwargs, false), app.cache[req.path := m])
        case None => Step(MountFallback(app.mounts, req), app.cache)
  }
}

=== FILE: configs.dfy ===
/** The named configuration store: each config object is reduced to a
    dictionary of its plain data attributes and filed under a name
    (rocinante/config.py). */
module Configs {
  import opened Wrappers
  import opened Http

  /** An attribute of a config object: plain data, or something callable
      (a method, a nested class). */
  datatype Attribute = Data(value: Value) | Callable

  /** A config object as `dir()` and `getattr` see it: attribute name to value. */
  type ConfigObject = map<string, Attribute>

  /** The class-level store: config name to filtered attribute dictionary. */
  type ConfigStore = map<string, map<string, Value>>

  /** `set_config` keeps an attribute when its name does not start with `__`
      and its value is not callable. */
  predicate Kept(name: string, a: Attribute) {
    !StartsWith(name, "__") && a.Data?
  }

  /** The dictionary comprehension of `set_config`. */
  function Filtered(obj: ConfigObject): (d: map<string, Value>)
    ensures forall k :: k in d <==> k in obj && Kept(k, obj[k])
    ensures forall k :: k in d ==> obj[k].Data? && d[k] == obj[k].value
  {
    map k | k in obj && Kept(k, obj[k]) :: obj[k].value
  }

  /** `get_config(name)`: `None` for a name never set. */
  function GetConfig(store: ConfigStore, name: string): (r: Option<map<string, Value>>)
    ensures r.None? <==> name !in store
    ensures r.Some? ==> r.value == store[name]
  {
    if name in store then Some(store[name]) else None
  }

  /** `set_config(name, config)`: afterwards `name` reads back the filtered
      dictionary, whatever it held before, and every other name reads back
      what it did before. */
  function SetConfig(store: ConfigStore, name: string, obj: ConfigObject): (s: ConfigStore)
    ensures GetConfig(s, name) == Some(Filtered(obj))
    ensures forall n :: n != name ==> GetConfig(s, n) == GetConfig(store, n)
    ensures s.Keys == store.Keys + {name}
  {
    store[name := Filtered(obj)]
  }

  /** A later `set_config` under the same name replaces the earlier one. */
  lemma SetConfigOverwrites(store: ConfigStore, name: string, first: ConfigObject, second: ConfigObject)
    ensures SetConfig(SetConfig(store, name, first), name, second) == SetConfig(store, name, second)
  {
  }

  /** Which attributes survive: a single leading underscore is kept, a double
      one is dropped, and so is anything callable. */
  lemma FilteredExample()
    ensures Filtered(map["DEBUG" := Data(Int(1)), "_secret" := Data(Str("k")),
                         "__doc__" := Data(NoneValue), "load" := Callable])
            == map["DEBUG" := Int(1), "_secret" := Str("k")]
  {
    var obj := map["DEBUG" := Data(Int(1)), "_secret" := Data(Str("k")),
                   "__doc__" := Data(NoneValue), "load" := Callable];
    assert StartsWith("__doc__", "__");
    assert !StartsWith("_secret", "__") by { assert "_secret"[..2] == "_s"; }
    assert !StartsWith("DEBUG", "__") by { assert "DEBUG"[..2] == "DE"; }
    assert Filtered(obj).Keys == {"DEBUG", "_secret"};
  }
}

=== FILE: dispatch_properties.dfy ===
/** Properties of the dispatcher that relate several calls or several
    configurations: the cache as a pure accelerator, the gates'
    short-circuits, the verb guards, the response chain's confinement to the
    normal path, and concrete scenarios. */
module DispatchProperties {
  import opened Wrappers
  import opened Http
  import opened Handlers
  import opened Routers
  import opened Middlewares
  import opened Application

  /** Every cached entry is what the URL map would answer for its path. */
  ghost predicate Coherent(cache: Cache, routes: RouteTable, rules: seq<Rule>) {
    forall p :: p in cache ==> routes(rules, p) == Some(cache[p])
  }

  /** Whether an endpoint came from the cache makes no difference: the reload
      of a handler just built for the request changes nothing. */
  lemma HandleIgnoresCaching(app: App, views: ViewCode, req: Request, endpoint: Endpoint, kwargs: Kwargs)
    ensures Handle(app, views, req, endpoint, kwargs, true) == Handle(app, views, req, endpoint, kwargs, false)
  {
    if endpoint.Cbv? {
      ReloadWithOwnRequest(New(endpoint.cls, app.id, req));
    }
  }

  /** The cache is purely an accelerator: while it agrees with the URL map, a
      request gets the outcome it would get from a cold cache, and the cache
      keeps agreeing with the URL map afterwards. */
  lemma CacheIsTransparent(app: App, routes: RouteTable, views: ViewCode, req: Request)
    requires Coherent(app.cache, routes, app.urlMap.rules)
    ensures Dispatch(app, routes, views, req).outcome == Dispatch(app.(cache := map[]), routes, views, req).outcome
    ensures Coherent(Dispatch(app, routes, views, req).cache, routes, app.urlMap.rules)
  {
    if RequestGate(app.middlewares, req).None? && req.path in app.cache {
      var hit := app.cache[req.path];
      assert routes(app.urlMap.rules, req.path) == Some(hit);
      HandleIgnoresCaching(app, views, req, hit.endpoint, hit.kwargs);
      assert app.(cache := map[]).middlewares == app.middlewares;
      assert Dispatch(app.(cache := map[]), routes, views, req).outcome
             == Handle(app.(cache := map[]), views, req, hit.endpoint, hit.kwargs, false);
    }
  }

  /** On a cache hit the URL map is not consulted: any two URL maps give the
      same step. */
  lemma CacheHitIgnoresRouteTable(app: App, routes: RouteTable, other: RouteTable, views: ViewCode, req: Request)
    requires req.path in app.cache
    ensures Dispatch(app, routes, views, req) == Dispatch(app, other, views, req)
  {
  }

  /** A request vetoed by some middleware is emitted as that middleware's
      response whatever is registered after it, and whatever the routes,
      mounts and views are. */
  lemma RequestVetoIgnoresEverythingAfter(app: App, pre: seq<Middleware>, post: seq<Middleware>,
                                          routes: RouteTable, views: ViewCode, req: Request)
    requires app.middlewares == pre + post
    requires RequestGate(pre, req).Some?
    ensures Dispatch(app, routes, views, req) == Step(RequestVetoed(RequestGate(pre, req).value), app.cache)
  {
    RequestGateIgnoresLater(pre, post, req);
  }

  /** A function view whose `allow_methods` lacks the request's method gets
      405, before any `process_view` hook and before the view runs. */
  lemma FunctionViewRefusesOtherVerbs(app: App, routes: RouteTable, views: ViewCode, req: Request,
                                      f: Func, kwargs: Kwargs)
    requires RequestGate(app.middlewares, req).None?
    requires Resolve(app, routes, req) == Some(Match(Fbv(f), kwargs))
    requires f.id in app.allowMethods && req.httpMethod !in app.allowMethods[f.id]
    ensures Dispatch(app, routes, views, req).outcome == MethodNotAllowed
  {
  }

  /** Decorating a function again changes the verbs of every rule of that
      function, including the ones added before: whatever the first `route`
      allowed, a method outside the later list gets 405 on any path that
      resolves to the function. */
  lemma RedecoratedFunctionAnswersWithLatestVerbs(app: App, d1: Decorator, d2: Decorator, f: Func,
                                                  routes: RouteTable, views: ViewCode, req: Request, kwargs: Kwargs)
    requires var app2 := Application.Decorate(Application.Decorate(app, d1, f), d2, f);
             && RequestGate(app2.middlewares, req).None?
             && Resolve(app2, routes, req) == Some(Match(Fbv(f), kwargs))
    requires req.httpMethod !in d2.methods
    ensures Dispatch(Application.Decorate(Application.Decorate(app, d1, f), d2, f), routes, views, req).outcome
            == MethodNotAllowed
  {
    var app2 := Application.Decorate(Application.Decorate(app, d1, f), d2, f);
    FunctionViewRefusesOtherVerbs(app2, routes, views, req, f, kwargs);
  }

  /** A class view without a method for the lower-cased verb gets 405 when it
      implements some verb and 404 when it implements none, before any
      `process_view` hook and before any view runs. */
  lemma ClassViewWithoutVerb(app: App, routes: RouteTable, views: ViewCode, req: Request,
                             cls: HandlerClass, kwargs: Kwargs)
    requires RequestGate(app.middlewares, req).None?
    requires Resolve(app, routes, req) == Some(Match(Cbv(cls), kwargs))
    requires Lower(req.httpMethod) !in cls.methods
    ensures Dispatch(app, routes, views, req).outcome
            == if exists v :: v in HttpMethodNames && v in cls.methods then MethodNotAllowed else NotFound
  {
    var h := New(cls, app.id, req);
    assert ImplementMethod(ReloadRequest(h, req)) == ImplementMethod(h);
  }

  /** `allow_methods` is compared with the request method as written, while
      the toolkit upper-cases the request method: a view registered with
      lower-case verbs answers 405 to every request whose method has an
      upper-case letter, although registration accepted the verbs. */
  lemma LowerCaseRegistrationRefusesUpperCaseMethods(app: App, routes: RouteTable, views: ViewCode, req: Request,
                                                     f: Func, kwargs: Kwargs, k: nat)
    requires RequestGate(app.middlewares, req).None?
    requires Resolve(app, routes, req) == Some(Match(Fbv(f), kwargs))
    requires f.id in app.allowMethods && forall m :: m in app.allowMethods[f.id] ==> Lower(m) == m
    requires k < |req.httpMethod| && 'A' <= req.httpMethod[k] <= 'Z'
    ensures Dispatch(app, routes, views, req).outcome == MethodNotAllowed
  {
    assert Lower(req.httpMethod) != req.httpMethod by {
      assert Lower(req.httpMethod)[k] != req.httpMethod[k];
    }
  }

  /** The middleware lists agree on their request and view hooks; only their
      response hooks may differ. */
  ghost predicate SameGates(a: seq<Middleware>, b: seq<Middleware>) {
    && |a| == |b|
    && (forall i, req :: 0 <= i < |a| ==> ProcessRequest(a[i], req) == ProcessRequest(b[i], req))
    && (forall i, req, view :: 0 <= i < |a| ==> ProcessView(a[i], req, view) == ProcessView(b[i], req, view))
  }

  /** Outcomes decided before the response chain runs. */
  predicate EarlyExit(o: Outcome) {
    o.RequestVetoed? || o.Forwarded? || o.NotFound? || o.MethodNotAllowed? || o.ViewVetoed?
  }

  /** The response hooks run only on the normal path: an early exit happens
      identically whatever the middlewares' `process_response` do. */
  lemma EarlyExitsIgnoreResponseHooks(app: App, other: seq<Middleware>, routes: RouteTable, views: ViewCode, req: Request)
    requires SameGates(app.middlewares, other)
    requires EarlyExit(Dispatch(app, routes, views, req).outcome)
    ensures Dispatch(app.(middlewares := other), routes, views, req) == Dispatch(app, routes, views, req)
  {
    var app' := app.(middlewares := other);
    FirstVetoPointwise(app.middlewares, other, RequestHook(req), RequestHook(req));
    forall view: View ensures ViewGate(app.middlewares, req, view) == ViewGate(other, req, view) {
      FirstVetoPointwise(app.middlewares, other, ViewHook(req, view), ViewHook(req, view));
    }
    var r := Resolve(app, routes, req);
    if RequestGate(app.middlewares, req).None? && r.Some? {
      var e := r.value;
      assert Resolve(app', routes, req) == r;
      var cached := req.path in app.cache;
      assert Dispatch(app, routes, views, req).outcome == Handle(app, views, req, e.endpoint, e.kwargs, cached);
      assert Dispatch(app', routes, views, req).outcome == Handle(app', views, req, e.endpoint, e.kwargs, cached);
    }
  }

  /** A response that goes out through the normal path is what the response
      chain made of the normalised view result. */
  lemma RespondedThroughChain(app: App, routes: RouteTable, views: ViewCode, req: Request)
    requires Dispatch(app, routes, views, req).outcome.Responded?
    ensures exists obj :: ResponseChain(app.middlewares, req, obj)
                          == Success(Resp(Dispatch(app, routes, views, req).outcome.response))
  {
    var s := Dispatch(app, routes, views, req);
    var e := Resolve(app, routes, req).value;
    assert s.outcome == Handle(app, views, req, e.endpoint, e.kwargs, req.path in app.cache);
  }

  /** Normalising twice is normalising once. */
  lemma NormaliseIdempotent(obj: Object)
    requires Normalise(obj).Success?
    ensures Normalise(Normalise(obj).value) == Normalise(obj)
  {
  }

  /** Two middlewares that each add a header on the way out: both headers end
      up on the response, in registration order. */
  lemma ResponseHeadersInRegistrationOrder(req: Request, r: Response)
    ensures
      var a := Custom(_ => None, (_, _) => None,
                      (_, o: Object) => if o.Resp? then Some(AddHeader(o.response, "X", "a")) else None);
      var b := Custom(_ => None, (_, _) => None,
                      (_, o: Object) => if o.Resp? then Some(AddHeader(o.response, "Y", "b")) else None);
      ResponseChain([a, b], req, Resp(r))
        == Success(Resp(r.(headers := r.headers + [Header("X", "a"), Header("Y", "b")])))
  {
    var a := Custom(_ => None, (_, _) => None,
                    (_, o: Object) => if o.Resp? then Some(AddHeader(o.response, "X", "a")) else None);
    var b := Custom(_ => None, (_, _) => None,
                    (_, o: Object) => if o.Resp? then Some(AddHeader(o.response, "Y", "b")) else None);
    ResponseChainLast([a], b, req, Resp(r));
    assert [a] + [b] == [a, b];
    assert r.headers + [Header("X", "a")] + [Header("Y", "b")] == r.headers + [Header("X", "a"), Header("Y", "b")];
  }

  /** A URL map whose patterns have no converters: the first rule whose
      pattern is the path, with no path parameters. */
  function ExactMatch(rules: seq<Rule>, path: string): (r: Option<Match>)
    ensures r.None? <==> forall i :: 0 <= i < |rules| ==> rules[i].pattern != path
    decreases |rules|
  {
    if rules == [] then None
    else if rules[0].pattern == path then Some(Match(rules[0].endpoint, map[]))
    else
      assert forall i :: 1 <= i < |rules| ==> rules[i] == rules[1..][i - 1];
      ExactMatch(rules[1..], path)
  }

  function Env(path: string): Environ {
    map["PATH_INFO" := path, "REQUEST_URI" := path, "RAW_URI" := path]
  }

  function RequestFor(verb: string, path: string): Request {
    Request(Env(path), verb, path, "http://localhost" + path, [], NoneValue, [], [], [], [])
  }

  function GetRequest(path: string): Request {
    RequestFor("GET", path)
  }

  function Bare(mounts: seq<Mount>): App {
    App(0, Router([]), map[], [], mounts, map[], map[])
  }

  /** Mounts `/a` then `/b`; a request for `/a/x` goes to the first only, with
      its path fields rewritten to `/x`. */
  lemma MountScenario(routes: RouteTable, views: ViewCode)
    requires forall p :: routes([], p).None?
    ensures
      var a := WsgiApp(1, true);
      var b := WsgiApp(2, true);
      var s := Dispatch(Bare([Mount("/a", a), Mount("/b", b)]), routes, views, GetRequest("/a/x"));
      && s.outcome.Forwarded? && s.outcome.app == a
      && s.outcome.environ == Env("/x")
      && s.cache == map[]
  {
    var a := WsgiApp(1, true);
    var b := WsgiApp(2, true);
    assert StartsWith("/a/x", "/a");
    var s := Dispatch(Bare([Mount("/a", a), Mount("/b", b)]), routes, views, GetRequest("/a/x"));
    assert Drop("/a/x", 2) == "/x";
    assert s.outcome.environ == ProcessEnviron(Env("/a/x"), "/a/x", "/a");
  }

  /** The prefix test is a plain string prefix: `/flask` captures `/flaskx`,
      which reaches the mounted application as `x`. */
  lemma MountIsNotSegmentAware(routes: RouteTable, views: ViewCode)
    requires forall p :: routes([], p).None?
    ensures
      var flask := WsgiApp(1, true);
      var s := Dispatch(Bare([Mount("/flask", flask)]), routes, views, GetRequest("/flaskx"));
      s.outcome.Forwarded? && s.outcome.app == flask && s.outcome.environ["PATH_INFO"] == "x"
  {
    var flask := WsgiApp(1, true);
    assert StartsWith("/flaskx", "/flask");
    assert Drop("/flaskx", 6) == "x";
  }

  /** With no route and no mount, every request is a 404. */
  lemma NothingRegisteredIsNotFound(routes: RouteTable, views: ViewCode, req: Request)
    requires forall p :: routes([], p).None?
    ensures Dispatch(Bare([]), routes, views, req) == Step(NotFound, map[])
  {
  }

  /** `GET /` on a route registered for GET: the first request misses the
      cache, matches, fills the cache and answers 200; the second hits the
      cache and answers the same, leaving the cache as it was. */
  lemma RootRouteScenario()
    ensures
      var f := Func(7, false);
      var app := Application.Decorate(Bare([]), Decorator("/", ["GET"]), f);
      var routes: RouteTable := (rules, p) => ExactMatch(rules, p);
      var views: ViewCode := _ => Plain(Str("ok"));
      var first := Dispatch(app, routes, views, GetRequest("/"));
      var second := Dispatch(app.(cache := first.cache), routes, views, GetRequest("/"));
      && first.cache == map["/" := Match(Fbv(f), map[])]
      && first.outcome == Responded(JsonResponse(Str("ok"), None))
      && first.outcome.response.status == 200
      && second == first
  {
    var f := Func(7, false);
    var app := Application.Decorate(Bare([]), Decorator("/", ["GET"]), f);
    assert app.urlMap.rules == [Rule("/", Fbv(f))];
  }

  /** `route('/b', methods=['POST'])` and then `route('/a', methods=['GET'])`
      on the same function: `POST /b` now gets 405, because both rules read
      the one `allow_methods` attribute, which the second decoration set. */
  lemma StackedRoutesScenario(views: ViewCode)
    ensures
      var f := Func(7, false);
      var app1 := Application.Decorate(Bare([]), Decorator("/b", ["POST"]), f);
      var app2 := Application.Decorate(app1, Decorator("/a", ["GET"]), f);
      var routes: RouteTable := (rules, p) => ExactMatch(rules, p);
      && Dispatch(app1, routes, views, RequestFor("POST", "/b")).outcome != MethodNotAllowed
      && Dispatch(app2, routes, views, RequestFor("POST", "/b")).outcome == MethodNotAllowed
      && Dispatch(app2, routes, views, RequestFor("GET", "/b")).outcome != MethodNotAllowed
  {
    var f := Func(7, false);
    var app1 := Application.Decorate(Bare([]), Decorator("/b", ["POST"]), f);
    var app2 := Application.Decorate(app1, Decorator("/a", ["GET"]), f);
    assert app1.urlMap.rules == [Rule("/b", Fbv(f))];
    assert app2.urlMap.rules == [Rule("/b", Fbv(f)), Rule("/a", Fbv(f))];
    assert ExactMatch(app2.urlMap.rules, "/b") == Some(Match(Fbv(f), map[]));
  }
}

=== FILE: handlers.dfy ===
/** Class-based views: construction of a handler from a request, rebinding a
    cached handler to a new request, and discovery of the verbs it implements
    (rocinante/handler.py). */
module Handlers {
  import opened Http

  /** A `RequestHandler` subclass: the methods it defines, by name, each with
      the `process_view_exempt` flag the exempt decorator may have set on it. */
  datatype HandlerClass = HandlerClass(methods: map<string, bool>)

  /** A handler instance: its class, the application it serves, the request
      it was built for and the request fields it copies at construction. */
  datatype RequestHandler = RequestHandler(
    cls: HandlerClass,
    application: nat,
    request: Request,
    url: string,
    path: string,
    json: Value,
    form: Fields,
    args: Fields,
    headers: seq<Header>,
    cookies: Fields,
    files: Fields)

  /** Every field the constructor derives from the request agrees with the
      request the handler holds. */
  predicate Bound(h: RequestHandler) {
    && h.url == h.request.url
    && h.path == h.request.path
    && h.json == h.request.json
    && h.form == h.request.form
    && h.args == h.request.args
    && h.headers == h.request.headers
    && h.cookies == h.request.cookies
    && h.files == h.request.files
  }

  /** `cls(application=..., request=...)`. */
  function New(cls: HandlerClass, application: nat, request: Request): (h: RequestHandler)
    ensures Bound(h)
    ensures h.request == request && h.application == application && h.cls == cls
  {
    RequestHandler(cls, application, request, request.url, request.path, request.json,
                   request.form, request.args, request.headers, request.cookies, request.files)
  }

  /** `reload_request`: re-runs the constructor with the handler's own
      application and the new request. */
  function ReloadRequest(h: RequestHandler, request: Request): (r: RequestHandler)
    ensures Bound(r)
    ensures r.request == request
    ensures r.application == h.application && r.cls == h.cls
  {
    New(h.cls, h.application, request)
  }

  /** A reload forgets whatever request the handler held before. */
  lemma ReloadOverwrites(h: RequestHandler, first: Request, second: Request)
    ensures ReloadRequest(ReloadRequest(h, first), second) == ReloadRequest(h, second)
  {
  }

  /** Reloading a freshly built handler with the request it was built for
      changes nothing, so the dispatcher's reloads of a handler it has just
      constructed for the current request are invisible. */
  lemma ReloadWithOwnRequest(h: RequestHandler)
    requires Bound(h)
    ensures ReloadRequest(h, h.request) == h
  {
  }

  /** The verb names as `dir()` lists them: alphabetically. */
  const AlphabeticalVerbs: seq<string> :=
    ["delete", "get", "head", "options", "patch", "post", "put", "trace"]

  /** The names of `names` the class defines, in the order of `names`. */
  function DefinedAmong(names: seq<string>, cls: HandlerClass): (r: seq<string>)
    ensures forall v :: v in r <==> v in names && v in cls.methods
    ensures |r| <= |names|
  {
    if names == [] then []
    else (if names[0] in cls.methods then [names[0]] else []) + DefinedAmong(names[1..], cls)
  }

  /** `implement_method`: the attributes of the handler that are verb names. */
  function ImplementMethod(h: RequestHandler): (verbs: seq<string>)
    ensures forall v :: v in verbs <==> v in HttpMethodNames && v in h.cls.methods
    ensures |verbs| == 0 <==> forall v :: v in HttpMethodNames ==> v !in h.cls.methods
  {
    var r := DefinedAmong(AlphabeticalVerbs, h.cls);
    assert forall v :: v in AlphabeticalVerbs <==> v in HttpMethodNames;
    assert |r| > 0 ==> r[0] in r;
    r
  }
}

=== FILE: http.dfy ===
/** The request and response vocabulary the dispatcher works with: the verb
    names, header lists, the request fields a handler copies, the Python values
    a view may return, and the response objects the framework builds. */
module Http {
  import opened Wrappers

  /** `http_method_names`, shared by the application, routers and handlers. */
  const HttpMethodNames: seq<string> :=
    ["get", "post", "put", "patch", "delete", "head", "options", "trace"]

  /** ASCII lower-casing of one character. */
  function LowerChar(c: char): char {
    if 'A' <= c <= 'Z' then (c as int - 'A' as int + 'a' as int) as char else c
  }

  /** `str.lower()` on the ASCII range. */
  function Lower(s: string): string {
    seq(|s|, i requires 0 <= i < |s| => LowerChar(s[i]))
  }

  /** `s.startswith(prefix)`. */
  predicate StartsWith(s: string, prefix: string) {
    |prefix| <= |s| && s[..|prefix|] == prefix
  }

  /** `s[n:]` with Python's tolerance for an index past the end. */
  function Drop(s: string, n: nat): string {
    if n <= |s| then s[n..] else ""
  }

  datatype Header = Header(name: string, value: string)

  /** Header lookup as the toolkit's header list does it: names compare without
      regard to case and the first matching header wins. */
  function HeaderGet(headers: seq<Header>, name: string): (r: Option<string>)
    ensures r.None? <==> forall i :: 0 <= i < |headers| ==> Lower(headers[i].name) != Lower(name)
    ensures r.Some? ==> exists i :: 0 <= i < |headers| && Lower(headers[i].name) == Lower(name)
                                    && headers[i].value == r.value
                                    && forall j :: 0 <= j < i ==> Lower(headers[j].name) != Lower(name)
  {
    if |headers| == 0 then None
    else if Lower(headers[0].name) == Lower(name) then Some(headers[0].value)
    else
      var r := HeaderGet(headers[1..], name);
      if r.Some? then
        ghost var k :| 0 <= k < |headers| - 1 && Lower(headers[1..][k].name) == Lower(name)
                       && headers[1..][k].value == r.value
                       && forall j :: 0 <= j < k ==> Lower(headers[1..][j].name) != Lower(name);
        assert headers[k + 1] == headers[1..][k];
        assert forall j :: 1 <= j < k + 1 ==> headers[j] == headers[1..][j - 1];
        r
      else
        assert forall i :: 1 <= i < |headers| ==> headers[i] == headers[1..][i - 1];
        r
  }

  /** The environ dictionary handed to a WSGI application. */
  type Environ = map<string, string>

  /** A multi-valued form, query-argument, cookie or upload field list. */
  type Fields = seq<(string, string)>

  /** A Python value a view may return or a response may carry as JSON.
      `Int` covers `bool` too; `Opaque` is any other object that is neither
      iterable nor callable (a `Render`, an `object()`). */
  datatype Value =
    | Int(n: int)
    | Str(s: string)
    | List(items: seq<Value>)
    | Tuple(items: seq<Value>)
    | Dict(entries: seq<(string, Value)>)
    | NoneValue
    | Opaque

  /** `isinstance(v, Iterable)`. */
  predicate Iterable(v: Value) {
    v.Str? || v.List? || v.Tuple? || v.Dict?
  }

  /** The request as the dispatcher and a handler see it. `httpMethod` is the
      upper-cased REQUEST_METHOD and `path` the decoded PATH_INFO. */
  datatype Request = Request(
    environ: Environ,
    httpMethod: string,
    path: string,
    url: string,
    headers: seq<Header>,
    json: Value,
    form: Fields,
    args: Fields,
    cookies: Fields,
    files: Fields)

  /** `request.origin`: the Origin header, if any. */
  function Origin(req: Request): Option<string> {
    HeaderGet(req.headers, "Origin")
  }

  datatype Body = Text(text: string) | Json(content: Value)

  /** A response object. `headers` is the list added to the response, beside
      the Content-Type the toolkit derives from `mimetype`. */
  datatype Response = Response(status: int, mimetype: string, headers: seq<Header>, body: Body)

  /** `JSONResponse(content, status)`; a missing status takes the toolkit's
      default of 200. */
  function JsonResponse(content: Value, status: Option<int>): Response {
    Response(status.GetOr(200), "application/json", [], Json(content))
  }

  /** `response.headers.add_header(name, value)`: appends. */
  function AddHeader(r: Response, name: string, value: string): Response {
    r.(headers := r.headers + [Header(name, value)])
  }

  /** Whatever object the dispatcher currently holds as "the response": a
      Response, or some other value that has not (yet) been turned into one. */
  datatype Object = Resp(response: Response) | Plain(value: Value)

  /** The exceptions a dispatch can raise on its own account. */
  datatype Fault =
    | MissingAllowMethods   // a function endpoint no `route` decorated has no `allow_methods`
    | TupleTooShort         // `response[1]` on a tuple of fewer than two items
    | TooManyArguments      // `_make_response(*response)` on a tuple of more than two items
    | NoHeadersAttribute    // the CORS hook reading `.headers` of something not a Response
    | NotCallable           // calling a final "response" that is not a Response
}

=== FILE: middlewares.dfy ===
/** Middlewares and the three ways the application runs them: the request and
    view hooks as first-veto gates, the response hook as a transform chain
    (rocinante/middleware.py and the `_iter_process_*` helpers of
    rocinante/application.py). */
module Middlewares {
  import opened Wrappers
  import opened Http
  import opened Handlers
  import opened Routers

  /** The view `process_view` is shown: the function itself, or the handler's
      bound method for the request's verb. */
  datatype View = FunctionView(f: Func) | BoundMethod(handler: RequestHandler, name: string)

  /** `getattr(view, 'process_view_exempt', False)`; a bound method reads the
      flag of the function it wraps. */
  function Exempt(view: View): bool {
    match view
    case FunctionView(f) => f.exempt
    case BoundMethod(h, n) => n in h.cls.methods && h.cls.methods[n]
  }

  /** A registered middleware. `Base` is `Middleware` itself (or a subclass
      overriding nothing), `Cors` is `CORSMiddleware`, and `Custom` is a
      subclass whose hooks are code outside this model; a hook returning
      anything other than a Response is `None` here. */
  datatype Middleware =
    | Base
    | Cors
    | Custom(onRequest: Request -> Option<Response>,
             onView: (Request, View) -> Option<Response>,
             onResponse: (Request, Object) -> Option<Response>)

  function ProcessRequest(m: Middleware, req: Request): Option<Response> {
    match m
    case Custom(onRequest, _, _) => onRequest(req)
    case _ => None
  }

  function ProcessView(m: Middleware, req: Request, view: View): Option<Response> {
    match m
    case Custom(_, onView, _) => onView(req, view)
    case _ => None
  }

  /** A middleware's `process_response` as the chain reads it: a Response it
      returned, `None` for any other return value, or the exception it raised. */
  function ProcessResponse(m: Middleware, req: Request, obj: Object): Result<Option<Response>, Fault> {
    match m
    case Base => Success(None)
    case Cors =>
      (match CorsProcessResponse(req, obj)
       case Failure(e) => Failure(e)
       case Success(Resp(r)) => Success(Some(r))
       case Success(Plain(_)) => Success(None))
    case Custom(_, _, onResponse) => Success(onResponse(req, obj))
  }

  /** The base middleware never short-circuits and never replaces the response. */
  lemma BaseIsInert(req: Request, view: View, obj: Object)
    ensures ProcessRequest(Base, req).None?
    ensures ProcessView(Base, req, view).None?
    ensures ProcessResponse(Base, req, obj) == Success(None)
  {
  }

  /** CORSMiddleware inherits the request and view hooks of the base class. */
  lemma CorsGatesAreInert(req: Request, view: View)
    ensures ProcessRequest(Cors, req).None?
    ensures ProcessView(Cors, req, view).None?
  {
  }

  const ExposedHeaders: string := "Access-Control-Allow-Origin,Access-Control-Allow-Credentials"

  /** `CORSMiddleware.process_response`: with an Origin header, adds the three
      CORS headers to the response it is given and returns that same response;
      without one, returns it untouched. */
  function CorsProcessResponse(req: Request, obj: Object): (r: Result<Object, Fault>)
    ensures Origin(req).None? ==> r == Success(obj)
    ensures Origin(req).Some? && obj.Plain? ==> r == Failure(NoHeadersAttribute)
    ensures Origin(req).Some? && obj.Resp? ==>
              && r.Success? && r.value.Resp?
              && r.value.response.status == obj.response.status
              && r.value.response.mimetype == obj.response.mimetype
              && r.value.response.body == obj.response.body
              && r.value.response.headers == obj.response.headers +
                   [Header("Access-Control-Allow-Origin", Origin(req).value),
                    Header("Access-Control-Allow-Credentials", "true"),
                    Header("Access-Control-Expose-Headers", ExposedHeaders)]
  {
    match Origin(req)
    case None => Success(obj)
    case Some(origin) =>
      match obj
      case Plain(_) => Failure(NoHeadersAttribute)
      case Resp(resp) =>
        var r1 := AddHeader(resp, "Access-Control-Allow-Origin", origin);
        var r2 := AddHeader(r1, "Access-Control-Allow-Credentials", "true");
        Success(Resp(AddHeader(r2, "Access-Control-Expose-Headers", ExposedHeaders)))
  }

  /** The first Response a hook returns, scanning `xs` in order; later
      elements are never consulted once one has answered. */
  function FirstVeto<X>(xs: seq<X>, hook: X -> Option<Response>): (r: Option<Response>)
    ensures r.None? <==> forall i :: 0 <= i < |xs| ==> hook(xs[i]).None?
    ensures r.Some? ==> exists i :: 0 <= i < |xs| && hook(xs[i]) == r
                                    && forall j :: 0 <= j < i ==> hook(xs[j]).None?
    decreases |xs|
  {
    if xs == [] then None
    else if hook(xs[0]).Some? then hook(xs[0])
    else
      var r := FirstVeto(xs[1..], hook);
      assert forall i :: 1 <= i < |xs| ==> xs[i] == xs[1..][i - 1];
      if r.Some? then
        ghost var k :| 0 <= k < |xs| - 1 && hook(xs[1..][k]) == r
                       && forall j :: 0 <= j < k ==> hook(xs[1..][j]).None?;
        assert hook(xs[k + 1]) == r;
        r
      else
        r
  }

  /** Once a prefix of the list has vetoed, whatever follows it is irrelevant;
      otherwise the veto (if any) comes from what follows. */
  lemma {:induction false} FirstVetoAppend<X>(pre: seq<X>, post: seq<X>, hook: X -> Option<Response>)
    ensures FirstVeto(pre + post, hook)
            == if FirstVeto(pre, hook).Some? then FirstVeto(pre, hook) else FirstVeto(post, hook)
    decreases |pre|
  {
    if pre == [] {
      assert pre + post == post;
    } else {
      assert (pre + post)[0] == pre[0];
      assert (pre + post)[1..] == pre[1..] + post;
      FirstVetoAppend(pre[1..], post, hook);
    }
  }

  /** Two lists whose hooks answer alike, position by position, veto alike. */
  lemma {:induction false} FirstVetoPointwise<X>(xs: seq<X>, ys: seq<X>, h: X -> Option<Response>, g: X -> Option<Response>)
    requires |xs| == |ys|
    requires forall i :: 0 <= i < |xs| ==> h(xs[i]) == g(ys[i])
    ensures FirstVeto(xs, h) == FirstVeto(ys, g)
    decreases |xs|
  {
    if xs != [] {
      assert h(xs[0]) == g(ys[0]);
      assert forall i :: 0 <= i < |xs| - 1 ==> xs[1..][i] == xs[i + 1] && ys[1..][i] == ys[i + 1];
      FirstVetoPointwise(xs[1..], ys[1..], h, g);
    }
  }

  /** `_iter_process_request`: the first middleware, in registration order,
      whose `process_request` returns a Response. */
  function RequestGate(mws: seq<Middleware>, req: Request): (r: Option<Response>)
    ensures r.None? <==> forall i :: 0 <= i < |mws| ==> ProcessRequest(mws[i], req).None?
    ensures r.Some? ==> exists i :: 0 <= i < |mws| && ProcessRequest(mws[i], req) == r
                                    && forall j :: 0 <= j < i ==> ProcessRequest(mws[j], req).None?
  {
    FirstVeto(mws, RequestHook(req))
  }

  /** `process_request`, with the request fixed. */
  function RequestHook(req: Request): Middleware -> Option<Response> {
    m => ProcessRequest(m, req)
  }

  /** `process_view`, with the request and view fixed. */
  function ViewHook(req: Request, view: View): Middleware -> Option<Response> {
    m => ProcessView(m, req, view)
  }

  /** A middleware registered after one whose `process_request` answered is
      never consulted: appending middlewares cannot change an answer. */
  lemma RequestGateIgnoresLater(pre: seq<Middleware>, post: seq<Middleware>, req: Request)
    requires RequestGate(pre, req).Some?
    ensures RequestGate(pre + post, req) == RequestGate(pre, req)
  {
    FirstVetoAppend(pre, post, RequestHook(req));
  }

  /** `_iter_process_view`: nothing at all for an exempt view; otherwise the
      first middleware whose `process_view` returns a Response. */
  function ViewGate(mws: seq<Middleware>, req: Request, view: View): (r: Option<Response>)
    ensures Exempt(view) ==> r.None?
    ensures !Exempt(view) ==> (r.None? <==> forall i :: 0 <= i < |mws| ==> ProcessView(mws[i], req, view).None?)
    ensures r.Some? ==> exists i :: 0 <= i < |mws| && ProcessView(mws[i], req, view) == r
                                    && forall j :: 0 <= j < i ==> ProcessView(mws[j], req, view).None?
  {
    if Exempt(view) then None else FirstVeto(mws, ViewHook(req, view))
  }

  /** `_iter_process_response`: every middleware in registration order sees
      the response accumulated so far; a Response it returns replaces it, any
      other return leaves it. */
  function ResponseChain(mws: seq<Middleware>, req: Request, obj: Object): (r: Result<Object, Fault>)
    ensures mws == [] ==> r == Success(obj)
    ensures r.Success? && r.value.Plain? ==> r.value == obj
    ensures r.Success? && obj.Resp? ==> r.value.Resp?
    ensures r.Success? && r.value != obj ==>
              exists i, o :: 0 <= i < |mws| && ProcessResponse(mws[i], req, o) == Success(Some(r.value.response))
    decreases |mws|
  {
    if mws == [] then Success(obj)
    else
      assert forall i :: 1 <= i < |mws| ==> mws[i] == mws[1..][i - 1];
      match ProcessResponse(mws[0], req, obj)
      case Failure(e) => Failure(e)
      case Success(None) => ResponseChain(mws[1..], req, obj)
      case Success(Some(x)) =>
        var r := ResponseChain(mws[1..], req, Resp(x));
        assert r.Success? && r.value == Resp(x) ==> ProcessResponse(mws[0], req, obj) == Success(Some(r.value.response));
        r
  }

  /** One step of the chain: what a single middleware's hook makes of the
      accumulated response. */
  function ChainStep(m: Middleware, req: Request, acc: Result<Object, Fault>): Result<Object, Fault> {
    match acc
    case Failure(e) => Failure(e)
    case Success(obj) =>
      match ProcessResponse(m, req, obj)
      case Failure(e) => Failure(e)
      case Success(None) => Success(obj)
      case Success(Some(r)) => Success(Resp(r))
  }

  /** Running the chain over `pre + post` is running it over `pre` and feeding
      the result to `post`. */
  lemma {:induction false} ResponseChainAppend(pre: seq<Middleware>, post: seq<Middleware>, req: Request, obj: Object)
    ensures ResponseChain(pre + post, req, obj)
            == match ResponseChain(pre, req, obj)
               case Failure(e) => Failure(e)
               case Success(acc) => ResponseChain(post, req, acc)
    decreases |pre|
  {
    if pre == [] {
      assert pre + post == post;
    } else {
      assert (pre + post)[0] == pre[0];
      assert (pre + post)[1..] == pre[1..] + post;
      match ProcessResponse(pre[0], req, obj)
      case Failure(e) =>
      case Success(None) => ResponseChainAppend(pre[1..], post, req, obj);
      case Success(Some(r)) => ResponseChainAppend(pre[1..], post, req, Resp(r));
    }
  }

  /** The last middleware decides: its Response wins if it returns one,
      otherwise the response accumulated before it stands. So the chain yields
      the last Response returned, or the input when none was. */
  lemma {:induction false} ResponseChainLast(pre: seq<Middleware>, m: Middleware, req: Request, obj: Object)
    ensures ResponseChain(pre + [m], req, obj) == ChainStep(m, req, ResponseChain(pre, req, obj))
  {
    ResponseChainAppend(pre, [m], req, obj);
    match ResponseChain(pre, req, obj)
    case Failure(e) =>
    case Success(acc) =>
      assert [m][1..] == [];
  }

  /** A chain of middlewares that never return a Response from
      `process_response` hands back its input. */
  lemma {:induction false} ResponseChainOfInert(mws: seq<Middleware>, req: Request, obj: Object)
    requires forall i :: 0 <= i < |mws| ==> ProcessResponse(mws[i], req, obj) == Success(None)
    ensures ResponseChain(mws, req, obj) == Success(obj)
    decreases |mws|
  {
    if mws != [] {
      assert forall i :: 1 <= i < |mws| ==> mws[i] == mws[1..][i - 1];
      ResponseChainOfInert(mws[1..], req, obj);
    }
  }
}

=== FILE: routers.dfy ===
/** Endpoints, rules and the `Router` that collects them before an application
    includes it (rocinante/router.py). */
module Routers {
  import opened Wrappers
  import opened Http
  import opened Handlers

  /** A function-based view: the identity of the function object and its
      `process_view_exempt` flag. */
  datatype Func = Func(id: nat, exempt: bool)

  /** The `allow_methods` attribute of every function object, by identity.
      A function object is shared by every rule, router and cache entry that
      refers to it, so a `route` decoration changes what all of them read;
      a function no `route` decorated has no entry. */
  type AllowMethods = map<nat, seq<string>>

  /** What a rule points at: a plain function or a handler class. */
  datatype Endpoint = Fbv(f: Func) | Cbv(cls: HandlerClass)

  /** Path parameters extracted by the URL map. */
  type Kwargs = map<string, string>

  /** A successful URL match, and what the handler cache stores per path. */
  datatype Match = Match(endpoint: Endpoint, kwargs: Kwargs)

  datatype Rule = Rule(pattern: string, endpoint: Endpoint)

  /** `Url(rule, handler)`, the element of an `urlpatterns` list. */
  datatype Url = Url(rule: string, handler: Endpoint)

  /** A router: its rules in registration order. */
  datatype Router = Router(rules: seq<Rule>)

  /** The exceptions registration raises. */
  datatype RegistrationError = InvalidMethods | InvalidPrefix | InvalidWsgiApplication

  /** Every method name, lower-cased, is one of the eight verbs. */
  predicate ValidMethods(methods: seq<string>) {
    forall m :: m in methods ==> Lower(m) in HttpMethodNames
  }

  /** `_check_methods`: scans the list and raises at the first name that is
      not a verb. */
  method CheckMethods(methods: seq<string>) returns (r: Result<(), RegistrationError>)
    ensures r.Success? <==> ValidMethods(methods)
    ensures r.Failure? ==> r.error == InvalidMethods
  {
    var i := 0;
    while i < |methods|
      invariant 0 <= i <= |methods|
      invariant forall k :: 0 <= k < i ==> Lower(methods[k]) in HttpMethodNames
    {
      if Lower(methods[i]) !in HttpMethodNames {
        return Failure(InvalidMethods);
      }
      i := i + 1;
    }
    return Success(());
  }

  /** The decorator `route` hands back: the pattern and verbs it will attach. */
  datatype Decorator = Decorator(pattern: string, methods: seq<string>)

  /** The verbs `route` attaches when it is given none. */
  const DefaultMethods: seq<string> := ["GET"]

  /** `route(rule, methods=...)`: validates the verbs when called, before any
      function is decorated, and only then yields the decorator. It takes no
      router: calling it can never change the rule list. */
  function Route(pattern: string, methods: seq<string>): (r: Result<Decorator, RegistrationError>)
    ensures r.Success? <==> ValidMethods(methods)
    ensures r.Success? ==> r.value.pattern == pattern && r.value.methods == methods
    ensures r.Failure? ==> r.error == InvalidMethods
  {
    if ValidMethods(methods) then Success(Decorator(pattern, methods)) else Failure(InvalidMethods)
  }

  /** `route(rule)` without `methods`: the default list, which is valid. */
  lemma RouteDefault(pattern: string)
    ensures Route(pattern, DefaultMethods) == Success(Decorator(pattern, ["GET"]))
  {
    assert Lower("GET") == "get";
  }

  /** Applying the decorator: sets `allow_methods` on the function object and
      appends one rule for the function. The caller keeps the same function
      object, as the decorator hands back the function it was given. */
  function Decorate(router: Router, verbs: AllowMethods, d: Decorator, fbv: Func): (r: (Router, AllowMethods))
    ensures |r.0.rules| == |router.rules| + 1
    ensures r.0.rules[..|router.rules|] == router.rules
    ensures r.0.rules[|router.rules|] == Rule(d.pattern, Fbv(fbv))
    ensures r.1.Keys == verbs.Keys + {fbv.id}
    ensures r.1[fbv.id] == d.methods
    ensures forall id :: id in verbs && id != fbv.id ==> r.1[id] == verbs[id]
  {
    (AddHandler(router, d.pattern, Fbv(fbv)), verbs[fbv.id := d.methods])
  }

  /** Decorating a function a second time changes the verbs of the rule the
      first decoration added: both rules point at the one function, which now
      carries the later list. */
  lemma {:induction false} RedecorateSharesVerbs(router: Router, verbs: AllowMethods, d1: Decorator, d2: Decorator, fbv: Func)
    ensures var (r1, v1) := Decorate(router, verbs, d1, fbv);
            var (r2, v2) := Decorate(r1, v1, d2, fbv);
            && r2.rules == router.rules + [Rule(d1.pattern, Fbv(fbv)), Rule(d2.pattern, Fbv(fbv))]
            && v2[fbv.id] == d2.methods
  {
    var (r1, v1) := Decorate(router, verbs, d1, fbv);
    var (r2, v2) := Decorate(r1, v1, d2, fbv);
    assert r1.rules == router.rules + [Rule(d1.pattern, Fbv(fbv))] by {
      assert r1.rules == r1.rules[..|router.rules|] + [r1.rules[|router.rules|]];
    }
    assert r2.rules == r1.rules + [Rule(d2.pattern, Fbv(fbv))] by {
      assert r2.rules == r2.rules[..|r1.rules|] + [r2.rules[|r1.rules|]];
    }
  }

  /** `add_handler(rule, handler)`: appends one rule. */
  function AddHandler(router: Router, pattern: string, handler: Endpoint): (r: Router)
    ensures |r.rules| == |router.rules| + 1
    ensures r.rules[..|router.rules|] == router.rules
    ensures r.rules[|router.rules|] == Rule(pattern, handler)
  {
    Router(router.rules + [Rule(pattern, handler)])
  }

  /** `add_urlpatterns(urlpatterns)`: `add_handler` for each `Url`, in order. */
  function AddUrlpatterns(router: Router, urls: seq<Url>): (r: Router)
    ensures |r.rules| == |router.rules| + |urls|
    ensures r.rules[..|router.rules|] == router.rules
    ensures forall i :: 0 <= i < |urls| ==>
              r.rules[|router.rules| + i] == Rule(urls[i].rule, urls[i].handler)
    decreases |urls|
  {
    if urls == [] then router
    else
      var next := AddHandler(router, urls[0].rule, urls[0].handler);
      var r := AddUrlpatterns(next, urls[1..]);
      assert r.rules[..|router.rules|] == next.rules[..|next.rules|][..|router.rules|];
      assert forall i :: 1 <= i < |urls| ==> urls[i] == urls[1..][i - 1];
      r
  }

  /** Verb validation ignores case: two lists that agree name by name once
      lower-cased are accepted or refused together. */
  lemma {:induction false} RouteIgnoresCase(pattern: string, a: seq<string>, b: seq<string>)
    requires |a| == |b|
    requires forall i :: 0 <= i < |a| ==> Lower(a[i]) == Lower(b[i])
    ensures Route(pattern, a).Success? <==> Route(pattern, b).Success?
  {
    if ValidMethods(a) {
      forall m | m in b ensures Lower(m) in HttpMethodNames {
        var i :| 0 <= i < |b| && b[i] == m;
        assert a[i] in a;
      }
    }
    if ValidMethods(b) {
      forall m | m in a ensures Lower(m) in HttpMethodNames {
        var i :| 0 <= i < |a| && a[i] == m;
        assert b[i] in b;
      }
    }
  }

  /** Registering two batches of url patterns one after the other is the same
      as registering their concatenation. */
  lemma {:induction false} AddUrlpatternsConcat(router: Router, first: seq<Url>, second: seq<Url>)
    ensures AddUrlpatterns(AddUrlpatterns(router, first), second)
            == AddUrlpatterns(router, first + second)
  {
    var lhs := AddUrlpatterns(AddUrlpatterns(router, first), second);
    var rhs := AddUrlpatterns(router, first + second);
    var n := |router.rules|;
    var mid := AddUrlpatterns(router, first);
    assert |lhs.rules| == |rhs.rules|;
    forall i | 0 <= i < |lhs.rules| ensures lhs.rules[i] == rhs.rules[i] {
      if i < n {
        assert lhs.rules[i] == lhs.rules[..|mid.rules|][i] == mid.rules[i];
        assert mid.rules[i] == mid.rules[..n][i] == router.rules[i];
        assert rhs.rules[i] == rhs.rules[..n][i];
      } else if i < n + |first| {
        assert lhs.rules[i] == lhs.rules[..|mid.rules|][i] == mid.rules[n + (i - n)];
        assert (first + second)[i - n] == first[i - n];
      } else {
        assert lhs.rules[|mid.rules| + (i - n - |first|)] == lhs.rules[i];
        assert (first + second)[i - n] == second[i - n - |first|];
      }
    }
    assert lhs.rules == rhs.rules;
  }

  /** The verb check, for upper-case, mixed-case and unknown names. */
  lemma ValidMethodsExamples()
    ensures ValidMethods(["GET", "post", "Put"])
    ensures !ValidMethods(["GET", "FETCH"])
    ensures ValidMethods([])
  {
    assert Lower("GET") == "get";
    assert Lower("post") == "post";
    assert Lower("Put") == "put";
    assert Lower("FETCH") == "fetch";
    assert "FETCH" in ["GET", "FETCH"];
  }
}

=== FILE: wrappers.dfy ===
/** Wrappers used throughout the model: an optional value
    (Python's `None` or a value) and a result that is either a value or the
    exception the framework raises. */
module Wrappers {

  datatype Option<+T> = None | Some(value: T) {

    /** The wrapped value, or `default` when there is none (`dict.get(k, default)`). */
    function GetOr(default: T): T {
      match this
      case Some(v) => v
      case None => default
    }
  }

  datatype Result<+R, +E> = Success(value: R) | Failure(error: E)
}
